=== FILE: README.md ===
# unitypackage extractor — a Dafny model of the extraction pipeline

`extractPackage` (src/index.ts) unpacks a `.unitypackage`. The archive is a
tar file. Expanding it into a temporary staging directory gives one
subdirectory per asset record. Each subdirectory holds a `pathname` file with
the asset's relative path and an `asset` file with its bytes. The function
walks the directory listing in order and, for each record:

1. skips the record silently when `pathname` or `asset` is missing;
2. reads `pathname`, drops one trailing `'\n'` and, on Windows, replaces each
   of `> : " | ? *` by `_`;
3. joins the result onto the output directory, resolves both paths and skips
   the record with a warning unless the resolved asset path *starts with* the
   resolved output directory as a string;
4. creates the parent directory and moves the asset there with `moveFile`,
   which renames and, on any rename error, copies and then unlinks.

An error inside steps 2–4 is caught and reported, and the loop goes on with
the next record. An empty output path means the current directory. The
staging directory is removed on every way out.

The model is in five modules:

- `Pathname` (pathname.dfy): the newline strip and the Windows character
  replacement, as pure functions. The platform is a boolean parameter.
- `PosixPath` (posix_path.dfy): a POSIX-style stand-in for Node's
  `path.join`/`path.resolve`. A string is split on `/`. Empty and `.`
  segments are dropped. `..` goes up but never above the root. A relative
  path starts from the current directory, which is a parameter. A resolved
  path is the list of its segments; `Render` gives its string form, and the
  containment test compares those strings.
- `Containment` (containment.dfy): the default output root, the destination
  of a record, and the containment test as written, with what it lets through.
- `FileSystem` (file_system.dfy): an abstract file system. `Tree` holds a map
  from path to bytes and a set of directories. The `FileSystem` class holds
  the same two things as fields, with one method per `fs` call the extractor
  makes, except `readdirSync`: the directory listing is an input sequence. Each call can fail in two ways: because of the state (a missing
  file, a directory in the way, a missing parent), or because a boolean input
  says the environment makes it fail (permissions, a rename across devices…).
- `Extract` (extract.dfy): `moveFile`, the loop body, the loop and
  `extractPackage`. Every method is proved against a specification function
  (`Move`, `EntryEffect`, `RunEntries`). The properties are proved about
  those functions.

The containment test is modelled exactly as the code has it: a plain string
prefix with no separator boundary. `Containment.SiblingPasses` shows the
consequence. With root `/out`, the pathname `../outside` lands in `/outside`,
which is not below `/out`, and the test accepts it; so does `../outside/x`
(`SiblingFilePasses`, `OutsideFileNextToOut`). `AcceptedEscapesAtMostToSibling`
and `InsideStaysNextToRoot` bound the escape: an accepted path stays under
the root's parent, in the root or in a sibling whose name starts with the
root's name.

Four points of the code's behaviour are worth stating outright, because
a reader might expect otherwise:

- The character replacement runs over the whole pathname string. It does not
  treat segments one by one, and an empty segment gets no placeholder.
- The prefix test has no separator boundary.
- `moveFile` falls back to copy-then-unlink on any rename error, not only on
  a rename across devices.
- Joining keeps a trailing `/`. A pathname ending in `/` passes the test
  like the same pathname without it, but the move onto it fails, because the
  target names a directory (`Extract.TargetFaults`).

## Model

| member | source | states |
|---|---|---|
| `Pathname.StripTrailingNewline` | src/index.ts:59 | when the text ends in `'\n'`, the result followed by `'\n'` is the text; otherwise the text is unchanged; the length drops by at most one |
| `Pathname.StripRemovesOnlyOne` | src/index.ts:59 | only one newline goes: a second `'\n'` or a preceding `'\r'` stays |
| `Pathname.ReplaceReserved` | src/index.ts:63 | the length is kept; each of `> : " \| ? *` becomes `_`; every other character, separators included, stays; the result has none of the six |
| `Pathname.ReplaceKeepsClean` | src/index.ts:63 | a text without reserved characters is left unchanged |
| `Pathname.ReplaceIdempotent` | src/index.ts:63 | replacing twice is replacing once |
| `Pathname.ResolvePathname` | src/index.ts:57-64 | off Windows the pathname is only newline-stripped; on Windows each reserved character becomes `_` and none remains; the length is the stripped length and non-reserved characters are kept |
| `PosixPath.Split` | src/index.ts:67-71 | at least one segment, none containing `/` |
| `PosixPath.SplitThenJoin` | src/index.ts:67-71 | joining the segments with `/` gives back the string |
| `PosixPath.JoinThenSplit` | src/index.ts:67-71 | splitting a `/`-free segment list joined with `/` gives back the list |
| `PosixPath.Normalise` | src/index.ts:70-71 | from a canonical start, with `/`-free segments, the result is canonical (no empty, `.` or `..` segment) |
| `PosixPath.Resolve` | src/index.ts:70-71 | a canonical current directory gives a canonical resolved path |
| `PosixPath.RenderThenResolve` | src/index.ts:70 | resolving the string form of a canonical path gives the path back |
| `PosixPath.ResolveJoined` | src/index.ts:67-71 | resolving `root/pathname` for a non-empty root is resolving the root and applying the pathname's segments |
| `PosixPath.Render` | src/index.ts:70-71 | the string `path.resolve` returns: always absolute, and `/` alone exactly for the root |
| `PosixPath.Accepted` | src/index.ts:73 | the `startsWith` test on the two resolved strings; every path at or below the root passes it |
| `PosixPath.RenderKeepsPrefix` | src/index.ts:73 | a path at or below the root renders to a string that starts with the root's string |
| `PosixPath.AcceptedEscapesAtMostToSibling` | src/index.ts:73 | a path that passes the test shares all of the root's segments but the last, and its next segment starts with the root's last segment |
| `Containment.OutputRoot` | src/index.ts:28-30 | an empty output path becomes the current directory's string; any other is kept |
| `Containment.DefaultRootIsCwd` | src/index.ts:28-30 | the default root resolves to the current directory |
| `Containment.Destination` | src/index.ts:67-71 | `resolve(join(root, pathname))`: canonical for a canonical current directory, and for a non-empty root the resolved root followed by the pathname's segments |
| `Containment.NamesDirectory` | src/index.ts:67 | `path.join` keeps a trailing `/`: for a non-empty pathname, its last character is `/`; for an empty pathname, which joining skips, the root's last character is `/` |
| `Containment.Inside` | src/index.ts:67-73 | the test on a root and a pathname; a pathname without a `..` segment always passes it |
| `Containment.PlainPathnameIsInside` | src/index.ts:67-73 | a pathname without a `..` segment resolves at or below the root and passes the test |
| `Containment.InsideStaysNextToRoot` | src/index.ts:67-76 | what passes the test lands in the root or in a sibling whose name starts with the root's name |
| `Containment.SiblingPasses` | src/index.ts:73 | for root `…/out` and a sibling `outside`, `../outside` resolves to the sibling, is not below the root, and passes |
| `Containment.OutsideNextToOut` | src/index.ts:73 | root `/out` and pathname `../outside` give `/outside`, which passes |
| `Containment.SiblingFilePasses` | src/index.ts:67-73 | `../sibling/name` resolves inside the sibling, is not below the root, and passes |
| `Containment.OutsideFileNextToOut` | src/index.ts:73 | root `/out` and pathname `../outside/x` give `/outside/x`, which passes |
| `Containment.AncestorIsRejected` | src/index.ts:73-76 | a path strictly above the root fails the test |
| `FileSystem.Parent` | src/index.ts:80 | `path.dirname`: the path without its last segment, which put back gives the path; the root is its own parent |
| `FileSystem.Ancestors` | src/index.ts:80 | the path and the root are among the directories a recursive mkdir covers |
| `FileSystem.AncestorsArePrefixes` | src/index.ts:80 | a recursive mkdir covers exactly the prefixes of the path |
| `FileSystem.Read` | src/index.ts:57 | reading succeeds exactly on an existing file, unless the environment fails it, and gives its bytes |
| `FileSystem.MakeDirs` | src/index.ts:80 | succeeds unless a file stands on the path or the environment fails it; then it adds every prefix as a directory, files unchanged |
| `FileSystem.Rename` | src/index.ts:12 | on success the destination holds the source's bytes, the source is gone, directories and every other file are unchanged |
| `FileSystem.Copy` | src/index.ts:15 | on success only the destination changes, to the source's bytes |
| `FileSystem.Unlink` | src/index.ts:16 | on success only the file is removed |
| `FileSystem.RemoveTree` | src/index.ts:88-91 | nothing at or below the removed directory remains; everything else is kept |
| `FileSystem.FileSystem.Exists` | src/index.ts:51 | true exactly when a file or a directory is at the path |
| `FileSystem.FileSystem.ReadFile` | src/index.ts:57 | gives the result of `Read` on the current state |
| `FileSystem.FileSystem.Mkdir` | src/index.ts:80 | the new state is `MakeDirs` of the old, or unchanged with an error |
| `FileSystem.FileSystem.RenameFile` | src/index.ts:12 | the new state is `Rename` of the old, or unchanged with an error |
| `FileSystem.FileSystem.CopyFile` | src/index.ts:15 | the new state is `Copy` of the old, or unchanged with an error |
| `FileSystem.FileSystem.UnlinkFile` | src/index.ts:16 | the new state is `Unlink` of the old, or unchanged with an error |
| `FileSystem.FileSystem.RemoveAll` | src/index.ts:90 | the new state is `RemoveTree` of the old |
| `Extract.Move` | src/index.ts:9-18 | succeeds when the source is a file that can be placed and either rename works or both copy and unlink do; then the destination holds the former source bytes and the source is gone; a rename error never escapes; a copy error leaves everything unchanged; an unlink error leaves both copies; directories and all other files are unchanged |
| `Extract.FallbackMatchesRename` | src/index.ts:12-16 | the copy-then-unlink fallback ends in the same state as a successful rename |
| `Extract.MoveFile` | src/index.ts:9-18 | the new state and the result are those of `Move` |
| `Extract.TargetFaults` | src/index.ts:67-83 | a joined target that ends in `/` names a directory, so both the rename and the copy of a file onto it fail; otherwise the faults are unchanged |
| `Extract.DestinationOf` | src/index.ts:57-71 | a record's destination: canonical for a canonical current directory, and the resolved root followed by the segments of its resolved pathname |
| `Extract.NewDirsMadeForAccepted` | src/index.ts:80 | every directory a recursive mkdir for a destination that passed the test adds is a prefix of that destination's parent |
| `Extract.Place` | src/index.ts:80-83 | succeeds exactly when no file blocks the directories to create, the asset is a file, the destination is neither the file-system root `/` nor an existing directory, the target does not end in `/`, mkdir is not failed by the environment and either rename works or copy and unlink both do; a successful mkdir adds exactly the destination's parent and its ancestors as directories; a failed mkdir changes nothing; after a successful mkdir the only errors are copy and unlink errors, never a rename error; after an unlink error the destination holds a copy of the asset and the asset is still there; on success the destination holds the asset's bytes and the asset is gone; only the destination is written, only the asset removed, directories only grow; any error but unlink leaves the files unchanged |
| `Extract.EntryEffect` | src/index.ts:46-86 | a record is skipped exactly when `pathname` or `asset` is missing, and then nothing changes; a failed read leaves the tree unchanged with a read error; a record whose destination fails the test becomes `Outside` with the tree unchanged, so no directory is created and nothing moves; a record is extracted exactly when both files exist, the read succeeds, the destination passes the test and placing it succeeds; for a destination that passes, the new tree is exactly the one placing gives, and a placing error is the record's error; a pathname ending in `/` is never extracted; every directory created is a prefix of the parent of a path that passed the test; an extracted record's destination is the resolved pathname, passes the test, and is neither the file-system root `/` nor a directory that already existed; when it differs from the asset's path it holds the asset's bytes and the asset is gone; every file written passes the test; only the record's asset can disappear; a failure other than unlink leaves the files unchanged; a rename error is never a record's error |
| `Extract.ProcessEntry` | src/index.ts:46-86 | the new state and the outcome are those of `EntryEffect` |
| `Extract.RunEntries` | src/index.ts:43-87 | one outcome per listed record; every extracted destination passes the test and every outside one fails it; every file written by the whole loop passes the test; every directory it creates is a prefix of the parent of a path that passed the test; the only files removed are the listed records' assets; no directory is removed |
| `Extract.OutcomeOfEntry` | src/index.ts:45-86 | each record's outcome is its own step from the state left by the records before it, whatever their outcomes |
| `Extract.ExtractPackage` | src/index.ts:26-92 | with the output path defaulted, the outcomes and the tree are those of `RunEntries`, then the staging directory is removed; a failed expansion still removes it; afterwards no file under the staging directory remains |

## Left out

- Expanding the tar archive (src/index.ts:37-40) is not modelled. The
  staging tree is part of the initial file system, and a failed expansion is
  a boolean input.
- Creating the temporary directory (src/index.ts:33) is not modelled: its
  path is an input. Removing it (src/index.ts:90) always succeeds in the
  model; a failing cleanup is not modelled.
- The order of the directory listing (src/index.ts:43) comes from the file
  system. It is an input sequence.
- Decoding the `pathname` file with an encoding (src/index.ts:57) is a
  function parameter.
- Node's real `path.join`/`path.resolve` are replaced by the POSIX-style
  normaliser. Windows drive letters, UNC paths and `\` as a separator are not
  modelled. On Windows only the character replacement differs.
- `Extract.EntryEffect`: creates the parent of the *resolved* destination.
  The code creates the `dirname` of the joined, unresolved path. The two name
  the same directory unless the joined path reduces to `.` or a chain of `..`. In
  that case the destination is the output root itself. The move onto it fails
  in both when the tree records the output root as a directory: an extracted
  destination is never an existing directory. The model does not assume that
  the tree records the current directory and its ancestors as directories. If
  it does not, the model can place the asset as a file at the output root,
  where Node fails on the existing directory.
- `FileSystem.Rename`: fails when the source is a directory. A real rename
  would move a directory named `asset`.
- `FileSystem.MakeDirs`: creates nothing when it fails. A real recursive
  mkdir may create some directories before failing.
- `FileSystem.Copy`: leaves the destination unchanged when it fails. A real
  copy may leave a partial file.
- `Extract.Move`: says what the destination holds only when the source and
  destination paths differ. They coincide only when the destination lies
  inside the staging directory: for example when the output root is an
  ancestor of it (`/`, or a default root of `/tmp`) or lies inside it.
- Log lines (src/index.ts:74, 79, 85) are replaced by the per-record outcome.
- async/await scheduling is not modelled; the calls run in sequence.
- src/cli.ts (argument handling, usage text, exit codes, timing) is not part
  of this model. Its one relevant fact, that the CLI passes `""` when no
  output path is given, is covered by `Containment.OutputRoot`.

=== FILE: containment.dfy ===
/** Where an asset goes and whether it may go there: the output root (with
    its default), the destination `resolve(join(root, pathname))`, and the
    extractor's containment test on the two, a plain string-prefix test. */
module Containment {
  import opened PosixPath

  /** The output directory used: an empty output path means the current
      directory. */
  function OutputRoot(cwd: Path, outputPath: string): (r: string)
    ensures r != ""
    ensures outputPath != "" ==> r == outputPath
    ensures outputPath == "" ==> r == Render(cwd)
  {
    if outputPath == "" then Render(cwd) else outputPath
  }

  /** The default output root resolves to the current directory. */
  lemma DefaultRootIsCwd(cwd: Path)
    requires Canonical(cwd)
    ensures Resolve(cwd, OutputRoot(cwd, "")) == cwd
  {
    RenderThenResolve(cwd, cwd);
  }

  /** The resolved path an asset with relative path `pathname` is written to. */
  function Destination(cwd: Path, root: string, pathname: string): (r: Path)
    ensures Canonical(cwd) ==> Canonical(r)
    ensures root != "" ==> r == Normalise(Resolve(cwd, root), Split(pathname))
  {
    ResolveJoined(cwd, root, pathname);
    Resolve(cwd, root + [Sep] + pathname)
  }

  /** Joining keeps a trailing '/': the joined target ends with one when the
      pathname does, or, for an empty pathname (which joining skips), when the
      root does. Such a target names a directory. */
  predicate NamesDirectory(root: string, pathname: string) {
    if pathname == "" then root != "" && root[|root| - 1] == Sep
    else pathname[|pathname| - 1] == Sep
  }

  /** The test the extractor applies before writing anything. A pathname
      without a ".." segment always passes it. */
  predicate Inside(cwd: Path, root: string, pathname: string)
    ensures root != "" && NoParentStep(pathname) ==> Inside(cwd, root, pathname)
  {
    NormaliseExtends(Resolve(cwd, root), Split(pathname));
    Accepted(Resolve(cwd, root), Destination(cwd, root, pathname))
  }

  predicate NoParentStep(pathname: string) {
    forall i :: 0 <= i < |Split(pathname)| ==> Split(pathname)[i] != ".."
  }

  /** A pathname without a ".." segment lands at or below the root, and the
      test lets it through. */
  lemma PlainPathnameIsInside(cwd: Path, root: string, pathname: string)
    requires root != "" && NoParentStep(pathname)
    ensures Resolve(cwd, root) <= Destination(cwd, root, pathname)
    ensures Inside(cwd, root, pathname)
  {
    ResolveJoined(cwd, root, pathname);
    NormaliseExtends(Resolve(cwd, root), Split(pathname));
  }

  /** Whatever passes the test lands below the root's parent, in the root or
      in a sibling whose name starts with the root's name. */
  lemma InsideStaysNextToRoot(cwd: Path, root: string, pathname: string)
    requires Canonical(cwd) && Resolve(cwd, root) != []
    requires Inside(cwd, root, pathname)
    ensures var r, d := Resolve(cwd, root), Destination(cwd, root, pathname);
      |d| >= |r| && d[..|r| - 1] == r[..|r| - 1] && r[|r| - 1] <= d[|r| - 1]
  {
    var r, d := Resolve(cwd, root), Destination(cwd, root, pathname);
    assert Canonical(d);
    AcceptedEscapesAtMostToSibling(r, d);
  }

  /** The absence of a separator boundary: for a root whose last name is a
      proper prefix of a sibling's name (root `/out`, sibling `outside`), the
      pathname `../outside` resolves to the sibling, which is not below the
      root and still passes. */
  lemma SiblingPasses(cwd: Path, rootPath: Path, sibling: string)
    requires Canonical(rootPath) && rootPath != [] && IsName(sibling)
    requires rootPath[|rootPath| - 1] < sibling
    ensures var root, pathname := Render(rootPath), ".." + [Sep] + sibling;
      && Destination(cwd, root, pathname) == rootPath[..|rootPath| - 1] + [sibling]
      && !(Resolve(cwd, root) <= Destination(cwd, root, pathname))
      && Inside(cwd, root, pathname)
  {
    var root, pathname := Render(rootPath), ".." + [Sep] + sibling;
    var up, name := rootPath[..|rootPath| - 1], rootPath[|rootPath| - 1];
    var dest := up + [sibling];
    assert rootPath == up + [name];
    RenderThenResolve(cwd, rootPath);
    SplitUp(sibling);
    ResolveJoined(cwd, root, pathname);
    NormaliseUp(up, name, sibling);
    assert Destination(cwd, root, pathname) == dest;
    assert !(rootPath <= dest) by {
      assert |rootPath| == |dest| && rootPath[|up|] != dest[|up|];
    }
    SiblingRenderPrefix(up, name, sibling);
  }

  lemma SplitUp(name: string)
    requires Sep !in name
    ensures Split(".." + [Sep] + name) == ["..", name]
  {
    SplitAround("..", name);
    SplitName("..");
    SplitName(name);
  }

  lemma NormaliseUp(up: Path, name: string, sibling: string)
    requires IsName(sibling)
    ensures Normalise(up + [name], ["..", sibling]) == up + [sibling]
  {
    assert Step(up + [name], "..") == up;
    assert ["..", sibling][1..] == [sibling];
    assert Normalise(up, [sibling]) == Normalise(up + [sibling], []);
  }

  lemma SiblingRenderPrefix(up: Path, name: string, sibling: string)
    requires name <= sibling
    ensures Render(up + [name]) <= Render(up + [sibling])
  {
    if up == [] {
      assert Render(up + [name]) == [Sep] + name;
      assert Render(up + [sibling]) == [Sep] + sibling;
    } else {
      JoinAppend(up, [name]);
      JoinAppend(up, [sibling]);
      var head := [Sep] + Join(up) + [Sep];
      assert Render(up + [name]) == head + name;
      assert Render(up + [sibling]) == head + sibling;
      assert (head + sibling)[..|head + name|] == head + name;
    }
  }

  /** A pathname that climbs above the root to one of its ancestors fails the
      test: a shorter string cannot start with a longer one. */
  lemma AncestorIsRejected(root: Path, dest: Path)
    requires Canonical(root) && dest <= root && dest != root
    ensures !Accepted(root, dest)
  {
    var rest := root[|dest|..];
    assert root == dest + rest && rest != [];
    assert |Join(rest)| > 0 by {
      assert IsName(rest[0]);
      if |rest| > 1 {
        assert Join(rest) == rest[0] + [Sep] + Join(rest[1..]);
      }
    }
    if dest != [] {
      JoinAppend(dest, rest);
    }
  }

  /** The instance from the extractor's own setting: root `/out`, pathname
      `../outside`. */
  lemma OutsideNextToOut(cwd: Path)
    ensures Destination(cwd, "/out", "../outside") == ["outside"]
    ensures Inside(cwd, "/out", "../outside")
  {
    assert IsName("out") && IsName("outside");
    assert "out" < "outside";
    SiblingPasses(cwd, ["out"], "outside");
    assert Render(["out"]) == "/out";
    assert ".." + [Sep] + "outside" == "../outside";
  }

  /** The same holds below the sibling: `../sibling/name` lands inside the
      sibling, which is not below the root, and passes. */
  lemma SiblingFilePasses(cwd: Path, rootPath: Path, sibling: string, name: string)
    requires Canonical(rootPath) && rootPath != [] && IsName(sibling) && IsName(name)
    requires rootPath[|rootPath| - 1] < sibling
    ensures var root, pathname := Render(rootPath), ".." + [Sep] + (sibling + [Sep] + name);
      && Destination(cwd, root, pathname) == rootPath[..|rootPath| - 1] + [sibling, name]
      && !(Resolve(cwd, root) <= Destination(cwd, root, pathname))
      && Inside(cwd, root, pathname)
  {
    var root, pathname := Render(rootPath), ".." + [Sep] + (sibling + [Sep] + name);
    var up := rootPath[..|rootPath| - 1];
    var dest := up + [sibling, name];
    SiblingPasses(cwd, rootPath, sibling);
    RenderThenResolve(cwd, rootPath);
    SplitUpFile(sibling, name);
    ResolveJoined(cwd, root, pathname);
    NormaliseUpFile(up, rootPath[|rootPath| - 1], sibling, name);
    assert Destination(cwd, root, pathname) == dest;
    assert !(rootPath <= dest) by {
      assert rootPath[|up|] != dest[|up|];
    }
    assert up + [sibling] <= dest;
    RenderKeepsPrefix(up + [sibling], dest);
  }

  lemma SplitUpFile(dir: string, name: string)
    requires Sep !in dir && Sep !in name
    ensures Split(".." + [Sep] + (dir + [Sep] + name)) == ["..", dir, name]
  {
    SplitAround("..", dir + [Sep] + name);
    SplitAround(dir, name);
    SplitName("..");
    SplitName(dir);
    SplitName(name);
  }

  lemma NormaliseUpFile(up: Path, last: string, dir: string, name: string)
    requires IsName(dir) && IsName(name)
    ensures Normalise(up + [last], ["..", dir, name]) == up + [dir, name]
  {
    assert Step(up + [last], "..") == up;
    assert ["..", dir, name][1..] == [dir, name];
    NormaliseNames(up, [dir, name]);
  }

  /** The file instance: `../outside/x` below root `/out` lands in
      `/outside/x` and passes. */
  lemma OutsideFileNextToOut(cwd: Path)
    ensures Destination(cwd, "/out", "../outside/x") == ["outside", "x"]
    ensures Inside(cwd, "/out", "../outside/x")
  {
    assert IsName("out") && IsName("outside") && IsName("x");
    assert "out" < "outside";
    SiblingFilePasses(cwd, ["out"], "outside", "x");
    assert Render(["out"]) == "/out";
    assert ".." + [Sep] + ("outside" + [Sep] + "x") == "../outside/x";
  }

}

=== FILE: extract.dfy ===
/** The extraction pipeline of `extractPackage` and its helper `moveFile`.
    The archive has already been expanded into a staging directory holding one
    subdirectory per record, each with a `pathname` file and an `asset` file.
    Every record of the directory listing is processed in turn: read its
    pathname, check the destination, create the directory, move the asset.
    A failing record is reported in its outcome and the loop goes on. */
module Extract {
  import opened PosixPath
  import opened FileSystem
  import opened Containment
  import Pathname

  /** What the environment does to the three calls of `moveFile`. */
  datatype MoveFaults = MoveFaults(renameFails: bool, copyFails: bool, unlinkFails: bool)

  /** What the environment does to the calls made for one record. */
  datatype Faults = Faults(readFails: bool, mkdirFails: bool, move: MoveFaults)

  /** The fixed inputs of one run: the staging directory, the current
      directory, the output root (after its default), the platform, and how
      the text of a `pathname` file is decoded. */
  datatype Config = Config(staging: Path, cwd: Path, root: string, win32: bool, decode: Data -> string)

  /** What became of one record. */
  datatype EntryOutcome =
    | Skipped                 // no `pathname` or no `asset`: ignored silently
    | Outside(dest: Path)     // failed the containment test: warned and skipped
    | Extracted(dest: Path)   // asset placed at dest
    | Failed(error: Error)    // an error was caught and reported

  datatype RunResult = Completed(outcomes: seq<EntryOutcome>) | UnpackFailed

  function PathnameFile(c: Config, entry: string): Path {
    c.staging + [entry, "pathname"]
  }

  function AssetFile(c: Config, entry: string): Path {
    c.staging + [entry, "asset"]
  }

  function RootPath(c: Config): Path {
    Resolve(c.cwd, c.root)
  }

  /** The paths whose content differs between two trees (new or rewritten). */
  predicate Written(t: Tree, t': Tree, p: Path) {
    p in t'.files && (p !in t.files || t'.files[p] != t.files[p])
  }

  /** moveFile: rename; on any rename error, copy then unlink. An error of the
      copy or of the unlink is the result. */
  function Move(t: Tree, src: Path, dst: Path, f: MoveFaults): (res: (Tree, Result<()>))
    ensures res.1.Ok? <==>
      src in t.files && CanPlace(t, dst) && (!f.renameFails || (!f.copyFails && !f.unlinkFails))
    ensures res.1.Ok? && src != dst ==>
      dst in res.0.files && res.0.files[dst] == t.files[src] && src !in res.0.files
    ensures res.1.Err? ==> res.1.error == CopyFailed || res.1.error == UnlinkFailed
    ensures res.1 == Err(CopyFailed) ==> res.0 == t
    ensures res.1 == Err(UnlinkFailed) ==>
      src in t.files && src in res.0.files && res.0.files == t.files[dst := t.files[src]]
    ensures res.0.dirs == t.dirs
    ensures forall p :: p != src && p != dst ==>
      (p in res.0.files <==> p in t.files) && (p in t.files ==> res.0.files[p] == t.files[p])
  {
    match Rename(t, src, dst, f.renameFails)
    case Ok(t1) => (t1, Ok(()))
    case Err(_) =>
      match Copy(t, src, dst, f.copyFails)
      case Err(e) => (t, Err(e))
      case Ok(t1) =>
        match Unlink(t1, src, f.unlinkFails)
        case Err(e) => (t1, Err(e))
        case Ok(t2) => (t2, Ok(()))
  }

  /** The fallback ends in the same state as the rename it replaces. */
  lemma FallbackMatchesRename(t: Tree, src: Path, dst: Path, copyFails: bool, unlinkFails: bool)
    requires src != dst && src in t.files && CanPlace(t, dst)
    ensures Move(t, src, dst, MoveFaults(true, false, false))
         == Move(t, src, dst, MoveFaults(false, copyFails, unlinkFails))
  {
    var v := t.files[src];
    assert t.files[dst := v] - {src} == (t.files - {src})[dst := v];
  }

  method MoveFile(fs: FileSystem, source: Path, destination: Path, f: MoveFaults) returns (r: Result<()>)
    modifies fs
    ensures (fs.State(), r) == Move(old(fs.State()), source, destination, f)
  {
    r := fs.RenameFile(source, destination, f.renameFails);
    if r.Err? {
      r := fs.CopyFile(source, destination, f.copyFails);
      if r.Ok? {
        r := fs.UnlinkFile(source, f.unlinkFails);
      }
    }
  }

  /** The faults of a move onto a target that names a directory (it ends in
      '/'): rename(2) of a file onto it and the copy's open of it both fail. */
  function TargetFaults(f: MoveFaults, dirTarget: bool): (g: MoveFaults)
    ensures !dirTarget ==> g == f
    ensures dirTarget ==> g.renameFails && g.copyFails && g.unlinkFails == f.unlinkFails
  {
    if dirTarget then f.(renameFails := true, copyFails := true) else f
  }

  /** Creating the destination's directory and moving the asset there. It
      succeeds exactly when no file stands where a directory is needed, the
      asset is a file, the destination is neither the file-system root `/` nor an existing
      directory, the target does not name a directory, and the environment
      lets mkdir and the move through. */
  function Place(t: Tree, asset: Path, dest: Path, dirTarget: bool, f: Faults): (res: (Tree, Result<()>))
    ensures res.1.Ok? <==>
      && !f.mkdirFails && Ancestors(Parent(dest)) !! t.files.Keys
      && asset in t.files && dest != [] && dest !in t.dirs && !dirTarget
      && (!f.move.renameFails || (!f.move.copyFails && !f.move.unlinkFails))
    ensures MakeDirs(t, Parent(dest), f.mkdirFails).Ok? ==>
      res.0.dirs == t.dirs + Ancestors(Parent(dest))
    ensures MakeDirs(t, Parent(dest), f.mkdirFails).Err? ==> res == (t, Err(MkdirFailed))
    ensures MakeDirs(t, Parent(dest), f.mkdirFails).Ok? && res.1.Err? ==>
      res.1.error == CopyFailed || res.1.error == UnlinkFailed
    ensures res.1 == Err(UnlinkFailed) ==>
      asset in t.files && asset in res.0.files && res.0.files == t.files[dest := t.files[asset]]
    ensures res.1.Ok? ==> asset in t.files
    ensures res.1.Ok? && asset != dest ==>
      dest in res.0.files && res.0.files[dest] == t.files[asset] && asset !in res.0.files
    ensures res.1.Err? && res.1.error != UnlinkFailed ==> res.0.files == t.files
    ensures forall p :: Written(t, res.0, p) ==> p == dest
    ensures forall p :: p in t.files && p !in res.0.files ==> p == asset
    ensures t.dirs <= res.0.dirs
  {
    AncestorsArePrefixes(Parent(dest));
    match MakeDirs(t, Parent(dest), f.mkdirFails)
    case Err(e) => (t, Err(e))
    case Ok(t1) => Move(t1, asset, dest, TargetFaults(f.move, dirTarget))
  }

  /** The relative path of a record whose `pathname` file holds `raw`. */
  function PathnameOf(c: Config, raw: Data): string {
    Pathname.ResolvePathname(c.decode(raw), c.win32)
  }

  /** The destination of a record whose `pathname` file holds `raw`: the
      resolved root followed by the pathname's segments. */
  function DestinationOf(c: Config, raw: Data): (r: Path)
    ensures Canonical(c.cwd) ==> Canonical(r)
    ensures c.root != "" ==> r == Normalise(RootPath(c), Split(PathnameOf(c, raw)))
  {
    Destination(c.cwd, c.root, PathnameOf(c, raw))
  }

  /** Whether the joined target of such a record ends in '/'. */
  predicate DirectoryTarget(c: Config, raw: Data) {
    NamesDirectory(c.root, PathnameOf(c, raw))
  }

  /** A directory created for a record: a prefix of the parent of a path that
      passed the containment test. */
  ghost predicate MadeForAccepted(c: Config, d: Path) {
    exists p :: Accepted(RootPath(c), p) && d <= Parent(p)
  }

  lemma NewDirsMadeForAccepted(t: Tree, t': Tree, c: Config, dest: Path)
    requires Accepted(RootPath(c), dest)
    requires t'.dirs <= t.dirs + Ancestors(Parent(dest))
    ensures forall d :: d in t'.dirs && d !in t.dirs ==> d <= Parent(dest)
    ensures forall d :: d in t'.dirs && d !in t.dirs ==> MadeForAccepted(c, d)
  {
    AncestorsArePrefixes(Parent(dest));
  }

  /** The effect of the loop body on one record. */
  function EntryEffect(t: Tree, c: Config, entry: string, f: Faults): (res: (Tree, EntryOutcome))
    ensures res.1.Skipped? <==> !Exists(t, PathnameFile(c, entry)) || !Exists(t, AssetFile(c, entry))
    ensures res.1.Skipped? || res.1.Outside? ==> res.0 == t
    ensures var read := Read(t, PathnameFile(c, entry), f.readFails);
      (Exists(t, PathnameFile(c, entry)) && Exists(t, AssetFile(c, entry)) && read.Err?) ==>
        res == (t, Failed(ReadFailed))
    ensures var read := Read(t, PathnameFile(c, entry), f.readFails);
      (&& Exists(t, PathnameFile(c, entry)) && Exists(t, AssetFile(c, entry)) && read.Ok?
       && !Accepted(RootPath(c), DestinationOf(c, read.value))) ==>
        res == (t, Outside(DestinationOf(c, read.value)))
    ensures var read := Read(t, PathnameFile(c, entry), f.readFails);
      res.1.Extracted? <==>
        && Exists(t, PathnameFile(c, entry)) && Exists(t, AssetFile(c, entry)) && read.Ok?
        && Accepted(RootPath(c), DestinationOf(c, read.value))
        && Place(t, AssetFile(c, entry), DestinationOf(c, read.value), DirectoryTarget(c, read.value), f).1.Ok?
    ensures var read := Read(t, PathnameFile(c, entry), f.readFails);
      (&& Exists(t, PathnameFile(c, entry)) && Exists(t, AssetFile(c, entry)) && read.Ok?
       && Accepted(RootPath(c), DestinationOf(c, read.value))) ==>
        var placed := Place(t, AssetFile(c, entry), DestinationOf(c, read.value), DirectoryTarget(c, read.value), f);
        res.0 == placed.0 && (placed.1.Err? ==> res.1 == Failed(placed.1.error))
    ensures var read := Read(t, PathnameFile(c, entry), f.readFails);
      read.Ok? && DirectoryTarget(c, read.value) ==> !res.1.Extracted?
    ensures res.1.Outside? ==> !Accepted(RootPath(c), res.1.dest)
    ensures res.1.Extracted? ==>
      && PathnameFile(c, entry) in t.files && AssetFile(c, entry) in t.files
      && res.1.dest == DestinationOf(c, t.files[PathnameFile(c, entry)])
      && Accepted(RootPath(c), res.1.dest)
      && res.1.dest != [] && res.1.dest !in t.dirs
    ensures res.1.Extracted? && AssetFile(c, entry) != res.1.dest ==>
      && res.1.dest in res.0.files
      && res.0.files[res.1.dest] == t.files[AssetFile(c, entry)]
      && AssetFile(c, entry) !in res.0.files
    ensures res.1.Failed? && res.1.error != UnlinkFailed ==> res.0.files == t.files
    ensures res.1.Failed? ==> res.1.error != RenameFailed
    ensures forall p :: Written(t, res.0, p) ==> Accepted(RootPath(c), p)
    ensures forall p :: p in t.files && p !in res.0.files ==> p == AssetFile(c, entry)
    ensures t.dirs <= res.0.dirs
    ensures forall d :: d in res.0.dirs && d !in t.dirs ==> MadeForAccepted(c, d)
  {
    var pathnameFile, assetFile := PathnameFile(c, entry), AssetFile(c, entry);
    if !Exists(t, pathnameFile) || !Exists(t, assetFile) then (t, Skipped)
    else
      match Read(t, pathnameFile, f.readFails)
      case Err(e) => (t, Failed(e))
      case Ok(raw) =>
        var dest := DestinationOf(c, raw);
        if !Accepted(RootPath(c), dest) then (t, Outside(dest))
        else
          var (t1, placed) := Place(t, assetFile, dest, DirectoryTarget(c, raw), f);
          NewDirsMadeForAccepted(t, t1, c, dest);
          (t1, if placed.Ok? then Extracted(dest) else Failed(placed.error))
  }

  /** The loop body of `extractPackage`, for one record. */
  method ProcessEntry(fs: FileSystem, c: Config, entry: string, f: Faults) returns (o: EntryOutcome)
    modifies fs
    ensures (fs.State(), o) == EntryEffect(old(fs.State()), c, entry, f)
  {
    var pathnamePath, assetPath := PathnameFile(c, entry), AssetFile(c, entry);
    var hasPathname := fs.Exists(pathnamePath);
    var hasAsset := fs.Exists(assetPath);
    if !hasPathname || !hasAsset {
      return Skipped;
    }
    var read := fs.ReadFile(pathnamePath, f.readFails);
    if read.Err? {
      return Failed(read.error);
    }
    var pathname := PathnameOf(c, read.value);
    var assetOutPath := Resolve(c.cwd, c.root + [Sep] + pathname);
    var resolvedOutputPath := Resolve(c.cwd, c.root);
    if !(Render(resolvedOutputPath) <= Render(assetOutPath)) {
      return Outside(assetOutPath);
    }
    var made := fs.Mkdir(Parent(assetOutPath), f.mkdirFails);
    if made.Err? {
      return Failed(made.error);
    }
    var moved := MoveFile(fs, assetPath, assetOutPath, TargetFaults(f.move, NamesDirectory(c.root, pathname)));
    o := if moved.Ok? then Extracted(assetOutPath) else Failed(moved.error);
  }

  /** The asset files of the listed records. */
  predicate IsListedAsset(c: Config, entries: seq<string>, p: Path) {
    exists i :: 0 <= i < |entries| && p == AssetFile(c, entries[i])
  }

  /** The records processed in listing order, each from the state the ones
      before it left. */
  function RunEntries(t: Tree, c: Config, entries: seq<string>, faults: seq<Faults>): (res: (Tree, seq<EntryOutcome>))
    requires |faults| == |entries|
    ensures |res.1| == |entries|
    ensures forall i :: 0 <= i < |res.1| && res.1[i].Extracted? ==> Accepted(RootPath(c), res.1[i].dest)
    ensures forall i :: 0 <= i < |res.1| && res.1[i].Outside? ==> !Accepted(RootPath(c), res.1[i].dest)
    ensures forall p :: Written(t, res.0, p) ==> Accepted(RootPath(c), p)
    ensures forall p :: p in t.files && p !in res.0.files ==> IsListedAsset(c, entries, p)
    ensures t.dirs <= res.0.dirs
    ensures forall d :: d in res.0.dirs && d !in t.dirs ==> MadeForAccepted(c, d)
    decreases |entries|
  {
    if entries == [] then (t, [])
    else
      var n := |entries| - 1;
      var (t1, before) := RunEntries(t, c, entries[..n], faults[..n]);
      var (t2, last) := EntryEffect(t1, c, entries[n], faults[n]);
      assert forall p :: Written(t, t2, p) ==> Written(t1, t2, p) || Written(t, t1, p);
      assert forall p :: IsListedAsset(c, entries[..n], p) ==> IsListedAsset(c, entries, p) by {
        forall p | IsListedAsset(c, entries[..n], p) ensures IsListedAsset(c, entries, p) {
          var i :| 0 <= i < n && p == AssetFile(c, entries[..n][i]);
          assert entries[..n][i] == entries[i];
        }
      }
      (t2, before + [last])
  }

  /** Each record's outcome is what its own step gives from the state the
      records before it left, whatever those outcomes were: a failure does not
      stop the loop and a later record does not change an earlier outcome. */
  lemma {:induction false} OutcomeOfEntry(t: Tree, c: Config, entries: seq<string>, faults: seq<Faults>, i: nat)
    requires |faults| == |entries| && i < |entries|
    ensures RunEntries(t, c, entries, faults).1[i]
         == EntryEffect(RunEntries(t, c, entries[..i], faults[..i]).0, c, entries[i], faults[i]).1
    decreases |entries|
  {
    var n := |entries| - 1;
    var before := RunEntries(t, c, entries[..n], faults[..n]);
    var last := EntryEffect(before.0, c, entries[n], faults[n]);
    assert RunEntries(t, c, entries, faults).1 == before.1 + [last.1];
    if i < n {
      OutcomeOfEntry(t, c, entries[..n], faults[..n], i);
      assert entries[..n][..i] == entries[..i] && faults[..n][..i] == faults[..i];
      assert entries[..n][i] == entries[i] && faults[..n][i] == faults[i];
      assert (before.1 + [last.1])[i] == before.1[i];
    } else {
      assert (before.1 + [last.1])[i] == last.1;
    }
  }

  /** extractPackage: default the output path, process every listed record,
      and remove the staging directory on every path out, including a failed
      expansion of the archive. */
  method ExtractPackage(fs: FileSystem, staging: Path, listing: seq<string>, outputPath: string,
                        cwd: Path, win32: bool, decode: Data -> string,
                        faults: seq<Faults>, unpacked: bool) returns (r: RunResult)
    requires |faults| == |listing|
    modifies fs
    ensures var c := Config(staging, cwd, OutputRoot(cwd, outputPath), win32, decode);
      if unpacked then
        var (t, outcomes) := RunEntries(old(fs.State()), c, listing, faults);
        r == Completed(outcomes) && fs.State() == RemoveTree(t, staging)
      else
        r == UnpackFailed && fs.State() == RemoveTree(old(fs.State()), staging)
    ensures forall p :: p in fs.files ==> !(staging <= p)
  {
    var root := outputPath;
    if root == "" {
      root := Render(cwd);
    }
    var c := Config(staging, cwd, root, win32, decode);
    if !unpacked {
      r := UnpackFailed;
    } else {
      var outcomes := [];
      for i := 0 to |listing|
        invariant (fs.State(), outcomes) == RunEntries(old(fs.State()), c, listing[..i], faults[..i])
      {
        var o := ProcessEntry(fs, c, listing[i], faults[i]);
        assert listing[..i + 1][..i] == listing[..i] && faults[..i + 1][..i] == faults[..i];
        outcomes := outcomes + [o];
      }
      assert listing[..|listing|] == listing && faults[..|faults|] == faults;
      r := Completed(outcomes);
    }
    fs.RemoveAll(staging);
  }
}

=== FILE: file_system.dfy ===
/** An abstract file system: files are byte strings keyed by resolved path,
    directories a set of resolved paths. `Tree` is its value; `FileSystem` is
    the mutable object the extractor works on, with one method per file-system
    call the extractor makes. Each call either succeeds or fails; a call fails
    when the state makes it impossible (a missing file, a directory in the way)
    or when the environment says so (`fails`), which stands for permissions,
    full disks, a rename across devices and every other outside cause. */
module FileSystem {
  import opened PosixPath

  newtype byte = x: int | 0 <= x < 256

  type Data = seq<byte>

  datatype Tree = Tree(files: map<Path, Data>, dirs: set<Path>)

  datatype Error = ReadFailed | MkdirFailed | RenameFailed | CopyFailed | UnlinkFailed

  datatype Result<T> = Ok(value: T) | Err(error: Error)

  /** The directory holding `p`; the root is its own parent. */
  function Parent(p: Path): (r: Path)
    ensures p != [] ==> r + [p[|p| - 1]] == p
    ensures p == [] ==> r == []
  {
    if p == [] then [] else p[..|p| - 1]
  }

  /** `p` and every directory above it, up to the root. */
  function Ancestors(p: Path): (r: set<Path>)
    ensures p in r && [] in r
    decreases |p|
  {
    if p == [] then {[]} else {p} + Ancestors(Parent(p))
  }

  /** The ancestors of `p` are exactly its prefixes. */
  lemma {:induction false} AncestorsArePrefixes(p: Path)
    ensures forall q :: q in Ancestors(p) <==> q <= p
    decreases |p|
  {
    if p != [] {
      AncestorsArePrefixes(Parent(p));
      forall q
        ensures q in Ancestors(p) <==> q <= p
      {
        if q <= p && q != p {
          assert q == p[..|q|];
        }
      }
    }
  }

  /** True for the paths the existence check sees: files and directories. */
  predicate Exists(t: Tree, p: Path) {
    p in t.files || p in t.dirs
  }

  /** Reading a file: fails on a directory or a missing path. */
  function Read(t: Tree, p: Path, fails: bool): (r: Result<Data>)
    ensures r.Ok? <==> !fails && p in t.files
    ensures r.Ok? ==> r.value == t.files[p]
  {
    if !fails && p in t.files then Ok(t.files[p]) else Err(ReadFailed)
  }

  /** Recursive directory creation: every missing directory from the root down
      to `d` is created; existing ones are fine; a file in the way fails. */
  function MakeDirs(t: Tree, d: Path, fails: bool): (r: Result<Tree>)
    ensures r.Ok? <==> !fails && Ancestors(d) !! t.files.Keys
    ensures r.Ok? ==> r.value.files == t.files && r.value.dirs == t.dirs + Ancestors(d)
    ensures r.Ok? ==> d in r.value.dirs
  {
    if !fails && Ancestors(d) !! t.files.Keys then Ok(t.(dirs := t.dirs + Ancestors(d)))
    else Err(MkdirFailed)
  }

  /** A file can be put at `dst` when its directory exists and `dst` is not
      itself a directory. */
  predicate CanPlace(t: Tree, dst: Path) {
    Parent(dst) in t.dirs && dst !in t.dirs
  }

  /** rename(2) of a file: the bytes move to `dst`, replacing what was there. */
  function Rename(t: Tree, src: Path, dst: Path, fails: bool): (r: Result<Tree>)
    ensures r.Ok? <==> !fails && src in t.files && CanPlace(t, dst)
    ensures r.Ok? ==> dst in r.value.files && r.value.files[dst] == t.files[src]
    ensures r.Ok? && src != dst ==> src !in r.value.files
    ensures r.Ok? ==> r.value.dirs == t.dirs
    ensures r.Ok? ==> forall p :: p != src && p != dst ==>
      (p in r.value.files <==> p in t.files) && (p in t.files ==> r.value.files[p] == t.files[p])
  {
    if !fails && src in t.files && CanPlace(t, dst) then
      Ok(t.(files := (t.files - {src})[dst := t.files[src]]))
    else Err(RenameFailed)
  }

  /** Copying a file: `dst` gets the bytes of `src`, `src` stays. */
  function Copy(t: Tree, src: Path, dst: Path, fails: bool): (r: Result<Tree>)
    ensures r.Ok? <==> !fails && src in t.files && CanPlace(t, dst)
    ensures r.Ok? ==> r.value == t.(files := t.files[dst := t.files[src]])
  {
    if !fails && src in t.files && CanPlace(t, dst) then
      Ok(t.(files := t.files[dst := t.files[src]]))
    else Err(CopyFailed)
  }

  /** Deleting a file. */
  function Unlink(t: Tree, p: Path, fails: bool): (r: Result<Tree>)
    ensures r.Ok? <==> !fails && p in t.files
    ensures r.Ok? ==> r.value == t.(files := t.files - {p})
  {
    if !fails && p in t.files then Ok(t.(files := t.files - {p})) else Err(UnlinkFailed)
  }

  /** Recursive removal of `root` and everything below it. */
  function RemoveTree(t: Tree, root: Path): (r: Tree)
    ensures forall p :: p in r.files <==> p in t.files && !(root <= p)
    ensures forall p :: p in r.files ==> r.files[p] == t.files[p]
    ensures forall p :: p in r.dirs <==> p in t.dirs && !(root <= p)
  {
    Tree(map p | p in t.files && !(root <= p) :: t.files[p],
         set p | p in t.dirs && !(root <= p))
  }

  class FileSystem {
    var files: map<Path, Data>
    var dirs: set<Path>

    function State(): Tree
      reads this
    {
      Tree(files, dirs)
    }

    constructor (t: Tree)
      ensures State() == t
    {
      files := t.files;
      dirs := t.dirs;
    }

    /** existsSync */
    method Exists(p: Path) returns (b: bool)
      ensures b <==> p in files || p in dirs
    {
      b := p in files || p in dirs;
    }

    /** readFileSync */
    method ReadFile(p: Path, fails: bool) returns (r: Result<Data>)
      ensures r == Read(State(), p, fails)
    {
      if !fails && p in files {
        r := Ok(files[p]);
      } else {
        r := Err(ReadFailed);
      }
    }

    /** mkdir with the recursive option */
    method Mkdir(d: Path, fails: bool) returns (r: Result<()>)
      modifies this
      ensures MakeDirs(old(State()), d, fails).Ok? ==>
        r == Ok(()) && State() == MakeDirs(old(State()), d, fails).value
      ensures MakeDirs(old(State()), d, fails).Err? ==>
        r == Err(MkdirFailed) && State() == old(State())
    {
      if !fails && Ancestors(d) !! files.Keys {
        dirs := dirs + Ancestors(d);
        r := Ok(());
      } else {
        r := Err(MkdirFailed);
      }
    }

    /** renameSync */
    method RenameFile(src: Path, dst: Path, fails: bool) returns (r: Result<()>)
      modifies this
      ensures Rename(old(State()), src, dst, fails).Ok? ==>
        r == Ok(()) && State() == Rename(old(State()), src, dst, fails).value
      ensures Rename(old(State()), src, dst, fails).Err? ==>
        r == Err(RenameFailed) && State() == old(State())
    {
      if !fails && src in files && Parent(dst) in dirs && dst !in dirs {
        files := (files - {src})[dst := files[src]];
        r := Ok(());
      } else {
        r := Err(RenameFailed);
      }
    }

    /** copyFileSync */
    method CopyFile(src: Path, dst: Path, fails: bool) returns (r: Result<()>)
      modifies this
      ensures Copy(old(State()), src, dst, fails).Ok? ==>
        r == Ok(()) && State() == Copy(old(State()), src, dst, fails).value
      ensures Copy(old(State()), src, dst, fails).Err? ==>
        r == Err(CopyFailed) && State() == old(State())
    {
      if !fails && src in files && Parent(dst) in dirs && dst !in dirs {
        files := files[dst := files[src]];
        r := Ok(());
      } else {
        r := Err(CopyFailed);
      }
    }

    /** unlinkSync */
    method UnlinkFile(p: Path, fails: bool) returns (r: Result<()>)
      modifies this
      ensures Unlink(old(State()), p, fails).Ok? ==>
        r == Ok(()) && State() == Unlink(old(State()), p, fails).value
      ensures Unlink(old(State()), p, fails).Err? ==>
        r == Err(UnlinkFailed) && State() == old(State())
    {
      if !fails && p in files {
        files := files - {p};
        r := Ok(());
      } else {
        r := Err(UnlinkFailed);
      }
    }

    /** Recursive removal of a directory tree. */
    method RemoveAll(root: Path)
      modifies this
      ensures State() == RemoveTree(old(State()), root)
    {
      files := map p | p in files && !(root <= p) :: files[p];
      dirs := set p | p in dirs && !(root <= p);
    }
  }
}

=== FILE: pathname.dfy ===
/** How the text of a record's `pathname` file becomes the relative path the
    asset is written to: one trailing newline is dropped and, on Windows,
    the characters that Windows refuses in file names are replaced. */
module Pathname {

  /** True if the text ends with a line feed. */
  predicate EndsWithNewline(s: string) {
    |s| > 0 && s[|s| - 1] == '\n'
  }

  /** Drops exactly one trailing '\n', if there is one. A '\r' before it, or a
      second '\n', stays. */
  function StripTrailingNewline(s: string): (r: string)
    ensures EndsWithNewline(s) ==> r + "\n" == s
    ensures !EndsWithNewline(s) ==> r == s
    ensures |s| - 1 <= |r| <= |s|
  {
    if EndsWithNewline(s) then s[..|s| - 1] else s
  }

  /** Stripping a text that ends in two line feeds leaves one of them. */
  lemma StripRemovesOnlyOne(s: string)
    ensures StripTrailingNewline(s + "\n\n") == s + "\n"
    ensures StripTrailingNewline(s + "\r\n") == s + "\r"
  {
    assert EndsWithNewline(s + "\n\n") && EndsWithNewline(s + "\r\n");
  }

  /** The characters replaced on Windows: > : " | ? *  ('<' is not among them). */
  predicate IsReserved(c: char) {
    c == '>' || c == ':' || c == '"' || c == '|' || c == '?' || c == '*'
  }

  predicate HasNoReserved(s: string) {
    forall i :: 0 <= i < |s| ==> !IsReserved(s[i])
  }

  /** Replaces every reserved character of the whole text by '_'; separators
      and every other character are kept where they are. */
  function ReplaceReserved(s: string): (r: string)
    ensures |r| == |s|
    ensures forall i :: 0 <= i < |s| && IsReserved(s[i]) ==> r[i] == '_'
    ensures forall i :: 0 <= i < |s| && !IsReserved(s[i]) ==> r[i] == s[i]
    ensures HasNoReserved(r)
  {
    if s == [] then []
    else [if IsReserved(s[0]) then '_' else s[0]] + ReplaceReserved(s[1..])
  }

  /** A text without reserved characters is left as it is; hence replacing
      twice is replacing once. */
  lemma {:induction false} ReplaceKeepsClean(s: string)
    requires HasNoReserved(s)
    ensures ReplaceReserved(s) == s
  {
    if s != [] {
      ReplaceKeepsClean(s[1..]);
    }
  }

  lemma ReplaceIdempotent(s: string)
    ensures ReplaceReserved(ReplaceReserved(s)) == ReplaceReserved(s)
  {
    ReplaceKeepsClean(ReplaceReserved(s));
  }

  /** The relative path the extractor uses for a record, given the decoded
      text of its `pathname` file and whether the platform is Windows. */
  function ResolvePathname(text: string, win32: bool): (r: string)
    ensures !win32 ==> r == StripTrailingNewline(text)
    ensures win32 ==> HasNoReserved(r)
    ensures |r| == |StripTrailingNewline(text)|
    ensures win32 ==> forall i :: 0 <= i < |r| && IsReserved(text[i]) ==> r[i] == '_'
    ensures forall i :: 0 <= i < |r| && !IsReserved(text[i]) ==> r[i] == text[i]
  {
    var stripped := StripTrailingNewline(text);
    if win32 then ReplaceReserved(stripped) else stripped
  }
}

=== FILE: posix_path.dfy ===
/** A POSIX-style stand-in for the path library the extractor calls: strings
    split on '/', a normaliser over segments, `resolve` against a current
    directory, and the string form of a resolved path. A resolved path is the
    list of its segments below the root, so `/out/a` is ["out", "a"] and the
    root itself is []. */
module PosixPath {

  type Path = seq<string>

  const Sep: char := '/'

  /** A segment a resolved path may hold: not empty, not "." or "..", no '/'. */
  predicate IsName(s: string) {
    s != "" && s != "." && s != ".." && Sep !in s
  }

  predicate Canonical(p: Path) {
    forall i :: 0 <= i < |p| ==> IsName(p[i])
  }

  predicate Separated(segs: seq<string>) {
    forall i :: 0 <= i < |segs| ==> Sep !in segs[i]
  }

  /** The pieces of `s` between its '/' characters (empty pieces included). */
  function Split(s: string): (segs: seq<string>)
    ensures |segs| >= 1 && Separated(segs)
    decreases |s|
  {
    if s == [] then [""]
    else
      var rest := Split(s[1..]);
      if s[0] == Sep then [""] + rest
      else [[s[0]] + rest[0]] + rest[1..]
  }

  /** The inverse of Split: the segments with '/' between them. */
  function Join(segs: seq<string>): string
    decreases |segs|
  {
    if |segs| == 0 then ""
    else if |segs| == 1 then segs[0]
    else segs[0] + [Sep] + Join(segs[1..])
  }

  lemma {:induction false} SplitThenJoin(s: string)
    ensures Join(Split(s)) == s
    decreases |s|
  {
    if s != [] {
      var rest := Split(s[1..]);
      SplitThenJoin(s[1..]);
      if s[0] == Sep {
        assert Split(s) == [""] + rest;
        assert Join([""] + rest) == "" + [Sep] + Join(rest);
        assert [s[0]] + s[1..] == s;
      } else if |rest| == 1 {
        assert Split(s) == [[s[0]] + rest[0]];
        assert [s[0]] + s[1..] == s;
      } else {
        var head := [s[0]] + rest[0];
        assert Split(s) == [head] + rest[1..];
        assert ([head] + rest[1..])[1..] == rest[1..];
        assert Join(rest) == rest[0] + [Sep] + Join(rest[1..]);
        assert [s[0]] + s[1..] == s;
      }
    }
  }

  /** A single name splits into itself. */
  lemma {:induction false} SplitName(x: string)
    requires Sep !in x
    ensures Split(x) == [x]
    decreases |x|
  {
    if x != [] {
      assert Sep !in x[1..] by {
        forall i | 0 <= i < |x[1..]| ensures x[1..][i] != Sep {
          assert x[1..][i] == x[i + 1];
        }
      }
      SplitName(x[1..]);
      assert [x[0]] + x[1..] == x;
    }
  }

  /** Split of a string given by its first character and the rest. */
  lemma SplitCons(c: char, t: string)
    ensures Split([c] + t) ==
      if c == Sep then [""] + Split(t) else [[c] + Split(t)[0]] + Split(t)[1..]
  {
    assert ([c] + t)[0] == c && ([c] + t)[1..] == t;
  }

  /** A '/' cuts the string: splitting distributes over it. */
  lemma {:induction false} SplitAround(a: string, b: string)
    ensures Split(a + [Sep] + b) == Split(a) + Split(b)
    decreases |a|
  {
    if a == [] {
      assert a + [Sep] + b == [Sep] + b;
      SplitCons(Sep, b);
    } else {
      var c, t := a[0], a[1..];
      assert a == [c] + t;
      assert a + [Sep] + b == [c] + (t + [Sep] + b);
      SplitAround(t, b);
      SplitCons(c, t + [Sep] + b);
      SplitCons(c, t);
      var restA := Split(t);
      if c != Sep {
        assert (restA + Split(b))[0] == restA[0];
        assert (restA + Split(b))[1..] == restA[1..] + Split(b);
      }
    }
  }

  lemma {:induction false} JoinThenSplit(segs: seq<string>)
    requires |segs| >= 1 && Separated(segs)
    ensures Split(Join(segs)) == segs
    decreases |segs|
  {
    SplitName(segs[0]);
    if |segs| > 1 {
      JoinThenSplit(segs[1..]);
      SplitAround(segs[0], Join(segs[1..]));
      assert [segs[0]] + segs[1..] == segs;
    }
  }

  /** Joining two non-empty runs of segments puts one '/' between them. */
  lemma {:induction false} JoinAppend(a: seq<string>, b: seq<string>)
    requires |a| >= 1 && |b| >= 1
    ensures Join(a + b) == Join(a) + [Sep] + Join(b)
    decreases |a|
  {
    if |a| == 1 {
      assert (a + b)[1..] == b;
    } else {
      JoinAppend(a[1..], b);
      assert (a + b)[1..] == a[1..] + b;
    }
  }

  /** One step of normalisation: "" and "." do nothing, ".." goes up (never
      above the root), any other segment goes down. */
  function Step(stack: Path, seg: string): Path {
    if seg == "" || seg == "." then stack
    else if seg == ".." then (if stack == [] then [] else stack[..|stack| - 1])
    else stack + [seg]
  }

  /** Applies the segments, in order, starting from `stack`. */
  function Normalise(stack: Path, segs: seq<string>): (r: Path)
    ensures Canonical(stack) && Separated(segs) ==> Canonical(r)
    decreases |segs|
  {
    if segs == [] then stack
    else Normalise(Step(stack, segs[0]), segs[1..])
  }

  lemma {:induction false} NormaliseAppend(stack: Path, x: seq<string>, y: seq<string>)
    ensures Normalise(stack, x + y) == Normalise(Normalise(stack, x), y)
    decreases |x|
  {
    if x == [] {
      assert x + y == y;
    } else {
      assert (x + y)[0] == x[0] && (x + y)[1..] == x[1..] + y;
      NormaliseAppend(Step(stack, x[0]), x[1..], y);
    }
  }

  /** Segments that are all names are appended as they are. */
  lemma {:induction false} NormaliseNames(stack: Path, segs: seq<string>)
    requires Canonical(segs)
    ensures Normalise(stack, segs) == stack + segs
    decreases |segs|
  {
    if segs != [] {
      NormaliseNames(stack + [segs[0]], segs[1..]);
      assert stack + [segs[0]] + segs[1..] == stack + segs;
    }
  }

  /** Without a ".." segment, normalising only goes down from the start. */
  lemma {:induction false} NormaliseExtends(stack: Path, segs: seq<string>)
    ensures (forall i :: 0 <= i < |segs| ==> segs[i] != "..") ==> stack <= Normalise(stack, segs)
    decreases |segs|
  {
    if segs != [] && forall i :: 0 <= i < |segs| ==> segs[i] != ".." {
      NormaliseExtends(Step(stack, segs[0]), segs[1..]);
    }
  }

  predicate IsAbsolute(s: string) {
    |s| > 0 && s[0] == Sep
  }

  /** The path `s` names when the current directory is `cwd`. */
  function Resolve(cwd: Path, s: string): (r: Path)
    ensures Canonical(cwd) ==> Canonical(r)
  {
    Normalise(if IsAbsolute(s) then [] else cwd, Split(s))
  }

  /** The string form of a resolved path: "/" for the root, "/a/b" otherwise. */
  function Render(p: Path): (r: string)
    ensures IsAbsolute(r)
    ensures Canonical(p) ==> (r == [Sep] <==> p == [])
  {
    [Sep] + Join(p)
  }

  /** Resolving the string form of a canonical path gives the path back. */
  lemma RenderThenResolve(cwd: Path, p: Path)
    requires Canonical(p)
    ensures Resolve(cwd, Render(p)) == p
  {
    assert Render(p) == "" + [Sep] + Join(p);
    SplitAround("", Join(p));
    if p == [] {
      assert Split("") == [""];
      assert Split(Render(p)) == ["", ""];
      assert Normalise([], ["", ""]) == [];
    } else {
      JoinThenSplit(p);
      assert Split(Render(p)) == [""] + p;
      NormaliseNames([], p);
    }
  }

  /** Joining `b` onto a non-empty `a` and resolving is resolving `a` and then
      applying the segments of `b`. (An empty `a` would make the joined string
      absolute, which is why an empty output path needs a default.) */
  lemma ResolveJoined(cwd: Path, a: string, b: string)
    ensures a != "" ==> Resolve(cwd, a + [Sep] + b) == Normalise(Resolve(cwd, a), Split(b))
  {
    if a != "" {
      assert (a + [Sep] + b)[0] == a[0];
      SplitAround(a, b);
      NormaliseAppend(if IsAbsolute(a) then [] else cwd, Split(a), Split(b));
    }
  }

  /** The containment test of the extractor as written: the resolved asset path,
      as a string, starts with the resolved output root, as a string. There is
      no separator boundary. */
  predicate Accepted(root: Path, dest: Path)
    ensures root <= dest ==> Accepted(root, dest)
  {
    RenderKeepsPrefix(root, dest);
    Render(root) <= Render(dest)
  }

  /** Rendering keeps prefixes: a path at or below `root` renders to a string
      that starts with the rendering of `root`. */
  lemma RenderKeepsPrefix(root: Path, dest: Path)
    ensures root <= dest ==> Render(root) <= Render(dest)
  {
    if root <= dest {
      var rest := dest[|root|..];
      assert dest == root + rest;
      if root == [] {
        assert Render(root) == [Sep];
        assert Render(dest)[..1] == [Sep];
      } else if rest != [] {
        JoinAppend(root, rest);
        var tail := [Sep] + Join(rest);
        assert Render(dest) == Render(root) + tail;
        assert (Render(root) + tail)[..|Render(root)|] == Render(root);
      } else {
        assert dest == root;
      }
    }
  }

  /** What the test lets through: a path that shares the root's parent and
      whose next segment merely starts with the root's last name, so a
      sibling such as `/outside` of the root `/out` passes. */
  lemma AcceptedEscapesAtMostToSibling(root: Path, dest: Path)
    requires Canonical(root) && Separated(dest) && root != []
    requires Accepted(root, dest)
    ensures |dest| >= |root|
    ensures dest[..|root| - 1] == root[..|root| - 1]
    ensures root[|root| - 1] <= dest[|root| - 1]
  {
    assert Join(root) <= Join(dest) by {
      assert Render(root)[1..] == Join(root);
      assert Render(dest)[1..] == Join(dest);
    }
    JoinPrefix(root, dest);
  }

  lemma {:induction false} JoinPrefix(root: Path, dest: Path)
    requires Canonical(root) && Separated(dest) && root != []
    requires Join(root) <= Join(dest)
    ensures |dest| >= |root|
    ensures dest[..|root| - 1] == root[..|root| - 1]
    ensures root[|root| - 1] <= dest[|root| - 1]
    decreases |root|
  {
    var r0 := root[0];
    assert IsName(r0);
    if |root| == 1 {
      assert Join(root) == r0;
      if |dest| > 1 {
        var d0 := dest[0];
        assert Join(dest) == d0 + [Sep] + Join(dest[1..]);
        PrefixBeforeSep(r0, d0, Join(dest[1..]));
      }
    } else {
      assert Join(root) == r0 + [Sep] + Join(root[1..]);
      assert Join(root)[|r0|] == Sep;
      assert Join(dest)[|r0|] == Sep;
      var d0 := dest[0];
      assert |dest| > 1;
      assert Join(dest) == d0 + [Sep] + Join(dest[1..]);
      PrefixBeforeSep(r0, d0, Join(dest[1..]));
      SepFreeHead(d0, Join(dest[1..]));
      assert r0 == d0;
      var n := |r0| + 1;
      assert Join(root)[n..] == Join(root[1..]);
      assert Join(dest)[n..] == Join(dest[1..]);
      assert Join(root[1..]) <= Join(dest[1..]);
      JoinPrefix(root[1..], dest[1..]);
      assert dest[..|root| - 1] == [d0] + dest[1..][..|root| - 2];
      assert root[..|root| - 1] == [r0] + root[1..][..|root| - 2];
    }
  }

  /** A '/'-free prefix of `y/z` is a prefix of `y`. */
  lemma PrefixBeforeSep(x: string, y: string, z: string)
    requires Sep !in x && x <= y + [Sep] + z
    ensures x <= y
  {
    var w := y + [Sep] + z;
    assert w[|y|] == Sep;
    assert forall i :: 0 <= i < |x| ==> x[i] == w[i];
  }

  /** In `y/z` with `y` free of '/', the first '/' is at position |y|. */
  lemma SepFreeHead(y: string, z: string)
    requires Sep !in y
    ensures forall i :: 0 <= i < |y| ==> (y + [Sep] + z)[i] != Sep
  {
  }
}
